=== FILE: README.md ===
# Emoji remover: a Dafny model of its decision and accounting layer

`remove_emojis.py` walks a directory tree and, for each file whose name passes
an extension and skip-list test, counts the emoji characters in its text,
writes back a copy with the emoji removed (unless in dry-run mode), and keeps
four running totals: files processed, files modified, emojis removed, and the
list of per-file errors. The process exits with failure when the root is
missing or is not a directory, when an error was recorded during the run, or
on interruption or an unexpected exception; otherwise it exits with success.
An invalid command line exits earlier, with status 2, through `argparse`.

This project models that logic with file I/O abstracted away. It has three
modules, one per concern of the script, and a worked run:

- `Classify` (`classify.dfy`) holds the three fixed name sets and the
  `pathlib` file suffix. Its `ShouldProcess` is `should_process_file`, with
  the text-extension set as a parameter because `main` extends it from the
  command line. A path is the sequence of its parts, the first being `/` for
  an absolute path.
- `Accounting` (`accounting.dfy`) holds the counters record `Stats` and the
  emoji count, `|Emojis(isEmoji, text)|`. Its `ProcessFile` is the step
  `process_file` takes on the counters. What the read and the write do is an
  `Outcome` value: the read fails, or the read yields a text and the write
  would succeed or fail.
- `Traversal` (`traversal.dfy`) holds a finite directory `Tree` and the
  top-down `Walk`, which prunes skipped sub-directories before descending.
  The per-file step is folded over the walk (`Fold`, and the loop
  `TraverseAndClean`), and `ExitStatus` and `Main` model the exit decision.
- `Scenario` (`scenario.dfy`) runs the model on one small tree: a text file
  with two emoji, a binary image and a `.git` directory.

The foreign `emoji` library enters only as parameters. `isEmoji: char -> bool`
stands for `emoji.is_emoji` on one character. `clean: string -> string`
stands for `emoji.replace_emoji(text, replace='')`, and it is used only for
the text a completed write leaves in a file (`Rewrites`).

Two properties of the code that a reader might not expect:

- `emojis_removed` grows by the number of single characters for which
  `is_emoji` holds (remove_emojis.py:63). The text written back is produced
  by `replace_emoji` (remove_emojis.py:66), which deletes whole emoji
  sequences, so the count and what the removal deletes need not agree. The
  model counts characters (`EmojiCount`) and keeps the removal opaque.
- The skip test runs over every part of the absolute path
  (remove_emojis.py:49-51), the parts above the root directory and the file
  name included. So a root that lies beneath a directory named `build` or
  `dist` processes nothing (`Traversal.SkippedAncestorProcessesNothing`),
  and a file named `build` is rejected (`Classify.FileNamedBuildRejected`).

## Model

| member | source | states |
|---|---|---|
| Classify.Suffix | remove_emojis.py:54-58 | the suffix is non-empty iff the name does not end in a dot and has a dot after its first character; a non-empty suffix is a proper tail of the name that starts with its only dot and has at least one character after it |
| Classify.ShouldProcess | remove_emojis.py:46-58 | a path with a skipped part is rejected; a path whose lower-cased suffix is binary is rejected; otherwise the path is accepted iff its lower-cased suffix is in the text set or its suffix is empty |
| Classify.SkippedPartRejects | remove_emojis.py:49-51 | if any part of the path, the file name included, is in the skip set, the file is rejected whatever the text set and suffix |
| Classify.FileNamedBuildRejected | remove_emojis.py:49-51 | a file whose own name is `build` is rejected in every directory and with every text set |
| Classify.BinaryWinsOverText | remove_emojis.py:54-55 | a file whose lower-cased suffix is binary is rejected even after that suffix is added to the text set |
| Classify.CaseInsensitiveSuffix | remove_emojis.py:54-58 | two file names equal up to letter case, neither a skipped name, get the same decision in any directory: suffix matching ignores case |
| Classify.UpperCasePythonFileAccepted | remove_emojis.py:58 | `A.PY` in an ordinary directory is accepted with the default text set |
| Classify.DotFileHasNoSuffix | remove_emojis.py:54-58 | a name with one dot, in first position (`.env`, `.gitignore`), has the empty suffix |
| Classify.DotFileAccepted | remove_emojis.py:49-58 | a name with one dot, in first position, that is not itself a skipped name, in a directory with no skipped part, is accepted with any text set, through the no-suffix branch |
| Classify.SkippedDotFileRejected | remove_emojis.py:49-51 | a file named `.git` is rejected in every directory, although it has the empty suffix |
| Classify.UpperCaseExtensionIgnored | remove_emojis.py:150-151 | adding a command-line extension that contains an ASCII capital letter changes no decision, since lookups use the lower-cased suffix and the added entry is not lower-cased |
| Classify.UndottedExtensionIgnored | remove_emojis.py:150-151 | adding a command-line extension that is empty or lacks the leading dot changes no decision |
| Classify.MoreExtensionsAdmitMore | remove_emojis.py:150-151 | extending the text set never rejects a file that was accepted before |
| Accounting.Emojis | remove_emojis.py:63 | the emoji of a text are no longer than the text, and a character occurs among them iff it occurs in the text and is an emoji |
| Accounting.EmojiCount | remove_emojis.py:63 | the count is at most the text length, and it is zero iff no character of the text is an emoji |
| Accounting.EmojisAppend | remove_emojis.py:63 | the emoji of a concatenation are those of the first part followed by those of the second, so counts add up |
| Accounting.ProcessFile | remove_emojis.py:70-102 | processed grows by one iff the read succeeds; removed grows by the text's emoji count; modified grows by one iff the count is positive, the run is not dry and the write completes; exactly one error is appended iff the read or an attempted write fails; modified ≤ processed is preserved; a dry run never changes modified |
| Accounting.ReadFailureRecordsOneError | remove_emojis.py:72-101 | a failed read leaves all three counters unchanged and appends exactly one error naming the file and the reason |
| Accounting.NoEmojiOnlyCountsProcessed | remove_emojis.py:83-88 | a text with no emoji changes only the processed counter, by one |
| Accounting.WriteFailureKeepsEarlierIncrements | remove_emojis.py:85-101 | when the write fails, processed and removed keep their increments, modified does not grow, and one error is appended |
| Accounting.DryRunCountsAlike | remove_emojis.py:87-97 | dry run and normal mode raise processed and removed alike; a dry run leaves modified unchanged |
| Traversal.Walk | remove_emojis.py:110-115 | every file the walk yields lies under the root and is not beneath any skipped sub-directory |
| Traversal.WalkIsUnprunedFiles | remove_emojis.py:110-112 | the walk yields exactly the tree's files that are not beneath a skipped sub-directory, in the same order as the unpruned listing |
| Traversal.Visit | remove_emojis.py:114-118 | a rejected file leaves the counters unchanged; one visit raises processed by at most one and appends at most one error, keeping earlier errors; modified ≤ processed is preserved; a dry run leaves modified unchanged |
| Traversal.Candidates | remove_emojis.py:114-118 | a walked file is handed to the per-file step iff the classification accepts it |
| Traversal.Fold | remove_emojis.py:114-118 | visiting files never lowers a counter, keeps earlier errors as a prefix, preserves modified ≤ processed, and in dry run leaves modified unchanged |
| Traversal.RewritesCountModified | remove_emojis.py:90-94 | the rewrites of a sequence of files are exactly as many as the files whose write is attempted and completes |
| Traversal.FoldIsSummary | remove_emojis.py:110-118 | after the walk, processed counts the accepted files that could be read, modified counts the accepted files whose write completes, removed sums the accepted files' emoji counts, and the errors are one per failed read or write, in walk order |
| Traversal.TraverseAndClean | remove_emojis.py:104-118 | the loop over the walk yields the fold's counters; modified ≤ processed ≤ number of walked files; a dry run ends with modified = 0 |
| Traversal.NoSkippedFileProcessed | remove_emojis.py:110-118 | no walked file is beneath a skipped sub-directory, and no file handed to the per-file step has a skipped part |
| Traversal.DryRunChangesNoFile | remove_emojis.py:90-97 | a dry run rewrites no file and ends with modified = 0 |
| Traversal.RewritesAreCleanedEmojiFiles | remove_emojis.py:87-94 | every rewrite targets one of the files visited whose read succeeded and whose text holds emoji, and leaves in it the cleaned form of that text |
| Traversal.Clean | remove_emojis.py:104-118 | after a whole run, modified ≤ processed ≤ number of walked files, and a dry run ends with modified = 0 |
| Traversal.EmojiFilesAreRewritten | remove_emojis.py:87-94 | among accepted files, every file that was read, holds emoji and whose write completes in a run that is not dry is rewritten with the cleaned form of its text |
| Traversal.DryRunCountsLikeNormalRun | remove_emojis.py:85-97 | over the same tree, a dry run ends with the same processed and removed counters as a normal run |
| Traversal.ExitStatus | remove_emojis.py:170-171 | the exit status is 0 or 1, and it is 1 iff the error list is non-empty |
| Traversal.Main | remove_emojis.py:138-171 | the exit status is 0 or 1; a root that is not an existing directory gives 1; otherwise the status is 1 iff the run with the extended text set recorded an error |
| Traversal.MainFailsIffError | remove_emojis.py:153-171 | the process fails iff the root is not an existing directory or some accepted file failed to read or to be written back |
| Traversal.EmptyRootSucceeds | remove_emojis.py:164-171 | an empty root directory gives all-zero counters, no errors and exit status 0 |
| Traversal.SkippedAncestorProcessesNothing | remove_emojis.py:49-51 | if a part of the root path itself is a skipped name, the run ends with the initial counters |
| Scenario.OneTextFile | remove_emojis.py:104-118 | for a root holding `a.txt` with two emoji, a binary `b.png` and `.git/config`: processed 1, modified 1, removed 2, no errors, exit 0 |

## Left out

- Reading and writing files, including the UTF-8 to latin-1 decode fallback (remove_emojis.py:74-80, 92-93). Each file's read and write behaviour is an `Outcome` value instead.
- Traversal.Rewrites: records only completed writes. A write that fails after `open(..., 'w')` has truncated the file leaves contents the model does not describe.
- The internals of `emoji.is_emoji` and `emoji.replace_emoji` are left out; they are the parameters `isEmoji` and `clean`. So the model does not prove that a cleaned file holds no emoji, nor that a second run modifies nothing. Both depend on that library's Unicode tables.
- `os.walk` enumeration order, symbolic links, and errors raised while listing a directory (which `os.walk` ignores) are left out. A `Tree` is given with its listing order, and the walk visits a directory's files before its sub-directories.
- All printed output and the summary formatting (remove_emojis.py:95-97, 102, 106-108, 120-136). The error entry keeps the file path and the reason, not the formatted message.
- Accounting.ProcessFile: does not model an exception raised by a progress `print` in `process_file`. One raised by the `print` at remove_emojis.py:95 would add an error for a file already counted as modified. One raised by the dry-run `print` at remove_emojis.py:97 would add an error for a file counted as processed, with its emoji added to removed, but not counted as modified. One raised by the `print` inside the handler at remove_emojis.py:102 is not caught there: it escapes `process_file` and ends the whole run through remove_emojis.py:176-178.
- Classify.Lower: lower-casing is modelled for ASCII letters only, while `str.lower` maps non-ASCII letters too. This changes decisions of `Classify.ShouldProcess` and weakens `Classify.CaseInsensitiveSuffix`. For example, take `x.DOCKERFILE` written with KELVIN SIGN (U+212A) in place of the `K`. The model rejects it, but Python lower-cases its suffix to `.dockerfile` and accepts it.
- Classify.UpperCaseExtensionIgnored: covers ASCII capitals only, because of `Classify.Lower`. With a non-ASCII capital the model differs from the source: after `-e .cafÉ` the model accepts `x.cafÉ`, since its suffix is left unchanged and matches the added entry, while Python lower-cases the suffix to `.café`, finds it in neither set, and rejects the file.
- Classify.CaseInsensitiveSuffix: holds for names that are equal up to ASCII letter case only, because of `Classify.Lower`.
- Classify.ShouldProcess: follows `Classify.Lower`, so it differs from the source on suffixes holding non-ASCII upper-case letters, as in the line above.
- Classify.Suffix: follows the `PurePath.suffix` rule of CPython 3.12, "from the last dot, when that dot is neither first nor last", so `a.` has the empty suffix and `..a` has the suffix `.a`. Other Python releases may treat such names differently. Path normalisation is not modelled; the file name is the last path part as given.
- Argument parsing (remove_emojis.py:139-147) is left out, including the exit with status 2 that `argparse` makes on an invalid command line; `Main` starts from the parsed root, flag and extensions. `Path.resolve` and the two root checks (remove_emojis.py:153-161) are not modelled as such; they become the boolean `rootIsDir` of `Main`. The handlers for `KeyboardInterrupt` and fatal exceptions (remove_emojis.py:173-178) are left out. Interruption is not part of the model, and neither are the exceptions that would reach the fatal handler, such as one raised in `print_summary` or one raised by the error `print` at remove_emojis.py:102. Each of them ends the run with status 1.

=== FILE: accounting.dfy ===
/**
 The per-file accounting of the emoji remover: the run counters, the emoji
 count of a text, and the step `process_file` takes on the counters.

 Reading and writing are not performed here. What happens when the file is
 read, and when the cleaned text is written back, is given as an `Outcome`;
 the emoji classification of the foreign `emoji` library is the parameter
 `isEmoji`.
 */
module Accounting {
  import opened Classify

  /** What the write of the cleaned text would do, should it be attempted. */
  datatype WriteResult = Written | WriteFailed(reason: string)

  /** What happens to one file: the read raises, or yields a text. */
  datatype Outcome =
    | ReadFailed(reason: string)
    | ReadOk(text: string, write: WriteResult)

  /** One entry of the error list: the file and the text of the exception. */
  datatype FileError = FileError(path: Path, reason: string)

  /** The counters of one run. */
  datatype Stats = Stats(processed: nat, modified: nat, removed: nat, errors: seq<FileError>)

  const Initial := Stats(0, 0, 0, [])

  /** A file is never counted as modified without having been counted as processed. */
  predicate Valid(s: Stats) {
    s.modified <= s.processed
  }

  /** The characters of `text` the classifier calls emoji, in order. */
  function Emojis(isEmoji: char -> bool, text: string): (r: string)
    ensures |r| <= |text|
    ensures forall c :: c in r <==> c in text && isEmoji(c)
  {
    if |text| == 0 then ""
    else if isEmoji(text[0]) then [text[0]] + Emojis(isEmoji, text[1..])
    else Emojis(isEmoji, text[1..])
  }

  /** The emoji count of `remove_emojis_from_text`: how many characters are emoji. */
  function EmojiCount(isEmoji: char -> bool, text: string): (n: nat)
    ensures n <= |text|
    ensures n == 0 <==> forall i :: 0 <= i < |text| ==> !isEmoji(text[i])
  {
    var r := Emojis(isEmoji, text);
    assert r == "" <== forall i :: 0 <= i < |text| ==> !isEmoji(text[i]) by {
      if r != "" {
        assert r[0] in r;
      }
    }
    |r|
  }

  /** The count is additive: the emoji of a concatenation are those of its halves. */
  lemma {:induction false} EmojisAppend(isEmoji: char -> bool, a: string, b: string)
    ensures Emojis(isEmoji, a + b) == Emojis(isEmoji, a) + Emojis(isEmoji, b)
    ensures EmojiCount(isEmoji, a + b) == EmojiCount(isEmoji, a) + EmojiCount(isEmoji, b)
    decreases |a|
  {
    if |a| > 0 {
      assert (a + b)[1..] == a[1..] + b;
      EmojisAppend(isEmoji, a[1..], b);
    } else {
      assert a + b == b;
    }
  }

  /** The write is attempted: the text was read, holds emoji, and this is not a dry run. */
  predicate WriteAttempted(isEmoji: char -> bool, dryRun: bool, o: Outcome) {
    o.ReadOk? && EmojiCount(isEmoji, o.text) > 0 && !dryRun
  }

  /** The file ends up rewritten. */
  predicate Modifies(isEmoji: char -> bool, dryRun: bool, o: Outcome) {
    WriteAttempted(isEmoji, dryRun, o) && o.write.Written?
  }

  /** An exception reaches the handler of `process_file`: the read or the attempted write failed. */
  predicate Fails(isEmoji: char -> bool, dryRun: bool, o: Outcome) {
    o.ReadFailed? || (WriteAttempted(isEmoji, dryRun, o) && o.write.WriteFailed?)
  }

  function FailureReason(o: Outcome): string {
    match o
    case ReadFailed(e) => e
    case ReadOk(_, w) => if w.WriteFailed? then w.reason else ""
  }

  /** The emoji the counters record for one file: its count if the read succeeded. */
  function Found(isEmoji: char -> bool, o: Outcome): nat {
    if o.ReadOk? then EmojiCount(isEmoji, o.text) else 0
  }

  /** The exception handler: record the error and let the run continue. */
  function Record(s: Stats, path: Path, reason: string): Stats {
    s.(errors := s.errors + [FileError(path, reason)])
  }

  /**
   `process_file` on the counters. The steps follow the source's order: the
   read may raise before anything is counted; after it, the file is counted
   as processed; a positive count is added to the removed total before the
   write is attempted; only a write that completes counts the file as
   modified. Any exception is recorded and does not escape.
   */
  function ProcessFile(isEmoji: char -> bool, dryRun: bool, s: Stats, path: Path, o: Outcome): (r: Stats)
    ensures r.processed == s.processed + (if o.ReadOk? then 1 else 0)
    ensures r.removed == s.removed + Found(isEmoji, o)
    ensures r.modified == s.modified + (if Modifies(isEmoji, dryRun, o) then 1 else 0)
    ensures r.errors == s.errors + (if Fails(isEmoji, dryRun, o) then [FileError(path, FailureReason(o))] else [])
    ensures Valid(s) ==> Valid(r)
    ensures dryRun ==> r.modified == s.modified
  {
    match o
    case ReadFailed(e) => Record(s, path, e)
    case ReadOk(text, w) =>
      var n := EmojiCount(isEmoji, text);
      var s1 := s.(processed := s.processed + 1);
      if n == 0 then s1
      else
        var s2 := s1.(removed := s1.removed + n);
        if dryRun then s2
        else
          match w
          case WriteFailed(e) => Record(s2, path, e)
          case Written => s2.(modified := s2.modified + 1)
  }

  /** A failed read leaves every counter alone and appends exactly one error. */
  lemma ReadFailureRecordsOneError(isEmoji: char -> bool, dryRun: bool, s: Stats, path: Path, reason: string)
    ensures ProcessFile(isEmoji, dryRun, s, path, ReadFailed(reason))
            == s.(errors := s.errors + [FileError(path, reason)])
  {
  }

  /** A text without emoji is counted as processed and nothing else changes. */
  lemma NoEmojiOnlyCountsProcessed(isEmoji: char -> bool, dryRun: bool, s: Stats, path: Path, o: Outcome)
    requires o.ReadOk? && EmojiCount(isEmoji, o.text) == 0
    ensures ProcessFile(isEmoji, dryRun, s, path, o) == s.(processed := s.processed + 1)
  {
  }

  /**
   A failed write comes after the processed and removed counters were
   raised, and before the modified counter would be: the first two keep
   their increments, the third has none, and one error is appended.
   */
  lemma WriteFailureKeepsEarlierIncrements(isEmoji: char -> bool, s: Stats, path: Path, text: string, reason: string)
    requires EmojiCount(isEmoji, text) > 0
    ensures ProcessFile(isEmoji, false, s, path, ReadOk(text, WriteFailed(reason)))
            == Stats(s.processed + 1, s.modified, s.removed + EmojiCount(isEmoji, text),
                     s.errors + [FileError(path, reason)])
  {
  }

  /** Dry run and normal mode count the same emoji and the same processed files; only the write differs. */
  lemma DryRunCountsAlike(isEmoji: char -> bool, s: Stats, path: Path, o: Outcome)
    ensures ProcessFile(isEmoji, true, s, path, o).processed == ProcessFile(isEmoji, false, s, path, o).processed
    ensures ProcessFile(isEmoji, true, s, path, o).removed == ProcessFile(isEmoji, false, s, path, o).removed
    ensures ProcessFile(isEmoji, true, s, path, o).modified == s.modified
  {
  }
}

=== FILE: classify.dfy ===
/**
 The file-classification rule of the emoji remover: the three fixed name sets,
 the `pathlib` notion of a file suffix, and the decision whether a file found
 during the walk is opened at all.

 A path is the sequence of its parts, as `Path.parts` yields them: for an
 absolute path the first part is the root `/`, the last part is the file name.
 */
module Classify {

  type Path = seq<string>

  /** Extensions processed by default; the command line may add more. */
  const TextExtensions: set<string> := {
    ".py", ".md", ".txt", ".json", ".yaml", ".yml",
    ".js", ".ts", ".html", ".css", ".sql", ".sh",
    ".bat", ".ps1", ".env", ".gitignore", ".dockerfile"
  }

  /** Directory names that are never descended into and never accepted as a path part. */
  const SkipDirectories: set<string> := {
    "__pycache__", ".git", ".venv", "venv", "node_modules",
    ".cache", ".pytest_cache", ".mypy_cache", "dist",
    "build", ".tox", "htmlcov"
  }

  /** Extensions that are rejected before the text extensions are consulted. */
  const BinaryExtensions: set<string> := {
    ".zip", ".tar", ".gz", ".rar", ".7z", ".exe", ".dll",
    ".so", ".dylib", ".bin", ".dat", ".db", ".sqlite",
    ".jpg", ".jpeg", ".png", ".gif", ".bmp", ".ico",
    ".mp3", ".mp4", ".avi", ".mov", ".wav", ".pdf",
    ".doc", ".docx", ".xls", ".xlsx", ".ppt", ".pptx"
  }

  predicate IsUpper(c: char) {
    'A' <= c <= 'Z'
  }

  /** `str.lower` on one character, restricted to ASCII letters. */
  function LowerChar(c: char): char {
    if IsUpper(c) then (c as int + 32) as char else c
  }

  function Lower(s: string): string {
    seq(|s|, i requires 0 <= i < |s| => LowerChar(s[i]))
  }

  /** A lower-cased string holds no upper-case ASCII letter. */
  lemma LowerHasNoUpper(s: string)
    ensures forall i :: 0 <= i < |Lower(s)| ==> !IsUpper(Lower(s)[i])
  {
  }

  /** `str.rfind`: the index of the last occurrence of `c` in `s`, or -1. */
  function RFind(s: string, c: char): (i: int)
    ensures -1 <= i < |s|
    ensures 0 <= i ==> s[i] == c
    ensures forall j :: i < j < |s| ==> s[j] != c
  {
    if |s| == 0 then -1
    else if s[|s| - 1] == c then |s| - 1
    else RFind(s[..|s| - 1], c)
  }

  /** The final component of a path; empty for the empty path. */
  function FileName(path: Path): string {
    if |path| == 0 then "" else path[|path| - 1]
  }

  /**
   `PurePath.suffix`: the part of the name from its last dot on, provided that
   dot is neither the first nor the last character. A name without a dot, a
   dot-file such as `.env`, and a name ending in a dot all have the empty suffix.
   */
  function Suffix(name: string): (r: string)
    ensures r != "" <==>
              && 0 < |name|
              && name[|name| - 1] != '.'
              && exists j :: 0 < j < |name| - 1 && name[j] == '.'
    ensures r != "" ==>
              && 2 <= |r| < |name|
              && r == name[|name| - |r|..]
              && r[0] == '.'
              && forall j :: 0 < j < |r| ==> r[j] != '.'
  {
    var i := RFind(name, '.');
    if 0 < i < |name| - 1 then name[i..] else ""
  }

  /** Some part of the path, the file name included, is a skipped directory name. */
  predicate HasSkippedPart(path: Path) {
    exists i :: 0 <= i < |path| && path[i] in SkipDirectories
  }

  /**
   `should_process_file`, with the text-extension set as a parameter since
   the command line extends it. Skipped parts win over everything, binary
   extensions win over text extensions, and a file without a suffix is
   accepted.
   */
  function ShouldProcess(textExts: set<string>, path: Path): (accept: bool)
    ensures HasSkippedPart(path) ==> !accept
    ensures Lower(Suffix(FileName(path))) in BinaryExtensions ==> !accept
    ensures !HasSkippedPart(path) && Lower(Suffix(FileName(path))) !in BinaryExtensions ==>
              (accept <==> Lower(Suffix(FileName(path))) in textExts || Suffix(FileName(path)) == "")
  {
    var suffix := Suffix(FileName(path));
    if HasSkippedPart(path) then false
    else if Lower(suffix) in BinaryExtensions then false
    else Lower(suffix) in textExts || suffix == ""
  }

  /** A skipped name anywhere in the path rejects the file, whatever its suffix. */
  lemma SkippedPartRejects(textExts: set<string>, path: Path, i: nat)
    requires i < |path| && path[i] in SkipDirectories
    ensures !ShouldProcess(textExts, path)
  {
  }

  /** A binary suffix rejects the file even when the same suffix was added to the text set. */
  lemma BinaryWinsOverText(textExts: set<string>, path: Path)
    requires Lower(Suffix(FileName(path))) in BinaryExtensions
    ensures !ShouldProcess(textExts + {Lower(Suffix(FileName(path)))}, path)
  {
  }

  /** Lower-casing a name and taking its suffix commute, since lowering never creates or removes a dot. */
  lemma {:induction false} RFindLower(s: string)
    ensures RFind(Lower(s), '.') == RFind(s, '.')
    decreases |s|
  {
    if |s| > 0 {
      assert Lower(s)[..|s| - 1] == Lower(s[..|s| - 1]);
      RFindLower(s[..|s| - 1]);
    }
  }

  lemma SuffixLower(name: string)
    ensures Suffix(Lower(name)) == Lower(Suffix(name))
  {
    RFindLower(name);
  }

  /**
   Suffix matching ignores case: two file names that differ only in the case
   of their letters, neither of them a skipped name, are classified alike.
   So `A.PY` is accepted exactly when `a.py` is.
   */
  lemma CaseInsensitiveSuffix(textExts: set<string>, dir: Path, n1: string, n2: string)
    requires Lower(n1) == Lower(n2)
    requires n1 !in SkipDirectories && n2 !in SkipDirectories
    ensures ShouldProcess(textExts, dir + [n1]) == ShouldProcess(textExts, dir + [n2])
  {
    SuffixLower(n1);
    SuffixLower(n2);
    LowerIdempotent(Suffix(n1));
    LowerIdempotent(Suffix(n2));
    assert Lower(Suffix(n1)) == Lower(Suffix(n2));
    assert HasSkippedPart(dir + [n1]) <==> HasSkippedPart(dir) by {
      SkippedPartsOfAppend(dir, n1);
    }
    assert HasSkippedPart(dir + [n2]) <==> HasSkippedPart(dir) by {
      SkippedPartsOfAppend(dir, n2);
    }
  }

  lemma LowerIdempotent(s: string)
    ensures Lower(Lower(s)) == Lower(s)
  {
  }

  lemma SkippedPartsOfAppend(dir: Path, name: string)
    ensures HasSkippedPart(dir + [name]) <==> HasSkippedPart(dir) || name in SkipDirectories
  {
    if HasSkippedPart(dir) {
      var i :| 0 <= i < |dir| && dir[i] in SkipDirectories;
      assert (dir + [name])[i] == dir[i];
    }
    if name in SkipDirectories {
      assert (dir + [name])[|dir|] == name;
    }
  }

  /**
   An extension given on the command line with an upper-case letter is
   never matched: suffixes are lower-cased before the lookup, the added
   entry is not. Adding it changes no classification.
   */
  lemma UpperCaseExtensionIgnored(textExts: set<string>, ext: string, path: Path, k: nat)
    requires k < |ext| && IsUpper(ext[k])
    ensures ShouldProcess(textExts + {ext}, path) == ShouldProcess(textExts, path)
  {
    var s := Lower(Suffix(FileName(path)));
    LowerHasNoUpper(Suffix(FileName(path)));
    if k < |s| {
      assert !IsUpper(s[k]);
    }
    assert s != ext;
  }

  /**
   An extension given without its leading dot is never matched either: a
   non-empty suffix always starts with a dot, and the empty suffix is already
   accepted through the no-suffix branch.
   */
  lemma UndottedExtensionIgnored(textExts: set<string>, ext: string, path: Path)
    requires ext == "" || ext[0] != '.'
    ensures ShouldProcess(textExts + {ext}, path) == ShouldProcess(textExts, path)
  {
    var suffix := Suffix(FileName(path));
    if suffix != "" {
      assert Lower(suffix)[0] == '.';
    }
  }

  /** Extending the text set can only admit more files. */
  lemma MoreExtensionsAdmitMore(textExts: set<string>, extra: set<string>, path: Path)
    requires ShouldProcess(textExts, path)
    ensures ShouldProcess(textExts + extra, path)
  {
  }

  /** Dot-files such as `.gitignore` and `.env` have no suffix. */
  lemma DotFileHasNoSuffix(name: string)
    requires 0 < |name| && name[0] == '.'
    requires forall j :: 0 < j < |name| ==> name[j] != '.'
    ensures Suffix(name) == ""
  {
  }

  /**
   A dot-file that is not itself a skipped name (`.env`, `.gitignore`, but
   not `.git` or `.venv`), in a directory with no skipped part, is accepted
   with any text set: it passes through the no-suffix branch, not through the
   dotted entries of the default text set.
   */
  lemma DotFileAccepted(textExts: set<string>, dir: Path, name: string)
    requires 0 < |name| && name[0] == '.'
    requires forall j :: 0 < j < |name| ==> name[j] != '.'
    requires !HasSkippedPart(dir) && name !in SkipDirectories
    ensures Suffix(name) == ""
    ensures ShouldProcess(textExts, dir + [name])
  {
    DotFileHasNoSuffix(name);
    SkippedPartsOfAppend(dir, name);
  }

  /** A dot-file that is itself a skipped name, such as a `.git` file, is rejected. */
  lemma SkippedDotFileRejected(textExts: set<string>, dir: Path)
    ensures !ShouldProcess(textExts, dir + [".git"])
  {
    SkippedPartRejects(textExts, dir + [".git"], |dir|);
  }

  /** `A.PY` in an ordinary directory is accepted with the default extensions. */
  lemma UpperCasePythonFileAccepted()
    ensures ShouldProcess(TextExtensions, ["/", "src", "A.PY"])
  {
    var path: Path := ["/", "src", "A.PY"];
    assert RFind("A.PY", '.') == 1;
    assert Lower(".PY") == ".py";
    assert !HasSkippedPart(path) by {
      forall i | 0 <= i < |path| ensures path[i] !in SkipDirectories {
      }
    }
  }

  /** A file named `build` is rejected whatever directory holds it. */
  lemma FileNamedBuildRejected(textExts: set<string>, dir: Path)
    ensures !ShouldProcess(textExts, dir + ["build"])
  {
    SkippedPartRejects(textExts, dir + ["build"], |dir|);
  }
}

=== FILE: scenario.dfy ===
/**
 A worked run of the emoji remover: a root holding a text file with two
 emoji, a binary image, and a `.git` directory, walked and cleaned by the
 model of `traverse_and_clean`.
 */
module Scenario {
  import opened Classify
  import opened Accounting
  import opened Traversal

  /** The two emoji of the worked example, party popper and thumbs up. */
  predicate Emoji(c: char) {
    c == '\U{1F389}' || c == '\U{1F44D}'
  }

  const Greeting: string := "Hello \U{1F389} world \U{1F44D}"

  lemma GreetingHasTwoEmoji()
    ensures EmojiCount(Emoji, Greeting) == 2
  {
    var p1, e1, p2, e2 := "Hello ", "\U{1F389}", " world ", "\U{1F44D}";
    assert Greeting == ((p1 + e1) + p2) + e2;
    Pieces();
    EmojisAppend(Emoji, p1, e1);
    EmojisAppend(Emoji, p1 + e1, p2);
    EmojisAppend(Emoji, (p1 + e1) + p2, e2);
  }

  lemma Pieces()
    ensures EmojiCount(Emoji, "Hello ") == 0
    ensures EmojiCount(Emoji, " world ") == 0
    ensures EmojiCount(Emoji, "\U{1F389}") == 1
    ensures EmojiCount(Emoji, "\U{1F44D}") == 1
  {
    var p1, p2 := "Hello ", " world ";
    forall i | 0 <= i < |p1| ensures !Emoji(p1[i]) {
    }
    forall i | 0 <= i < |p2| ensures !Emoji(p2[i]) {
    }
    assert Emojis(Emoji, "\U{1F389}") == "\U{1F389}";
    assert Emojis(Emoji, "\U{1F44D}") == "\U{1F44D}";
  }

  const Project: Tree :=
    Dir("proj", [FileNode("a.txt", ReadOk(Greeting, Written)), FileNode("b.png", ReadOk(Greeting, Written))],
        [Dir(".git", [FileNode("config", ReadOk(Greeting, Written))], [])])

  /** The walk of the example lists `a.txt` and `b.png` and never enters `.git`. */
  lemma WalkOfProject()
    ensures Walk(["/", "proj"], Project)
            == [Entry(["/", "proj", "a.txt"], ReadOk(Greeting, Written)),
                Entry(["/", "proj", "b.png"], ReadOk(Greeting, Written))]
  {
    var root: Path := ["/", "proj"];
    var git := Project.subdirs[0];
    assert root + ["a.txt"] == ["/", "proj", "a.txt"];
    assert root + ["b.png"] == ["/", "proj", "b.png"];
    assert Project.subdirs[1..] == [];
    assert WalkAll(root, Project.subdirs) == [];
  }

  /** Of the two files, only the text file is accepted. */
  lemma Classification()
    ensures ShouldProcess(TextExtensions, ["/", "proj", "a.txt"])
    ensures !ShouldProcess(TextExtensions, ["/", "proj", "b.png"])
  {
    TextFileAccepted();
    ImageRejected();
  }

  lemma TextFileAccepted()
    ensures ShouldProcess(TextExtensions, ["/", "proj", "a.txt"])
  {
    var a: Path := ["/", "proj", "a.txt"];
    assert RFind("a.txt", '.') == 1 by {
      assert "a.txt"[1] == '.';
    }
    assert Suffix(FileName(a)) == ".txt";
    assert Lower(".txt") == ".txt";
    forall i | 0 <= i < |a| ensures a[i] !in SkipDirectories {
    }
  }

  lemma ImageRejected()
    ensures !ShouldProcess(TextExtensions, ["/", "proj", "b.png"])
  {
    assert RFind("b.png", '.') == 1 by {
      assert "b.png"[1] == '.';
    }
    assert Suffix(FileName(["/", "proj", "b.png"])) == ".png";
    assert Lower(".png") == ".png";
  }

  /**
   A root holding `a.txt` with two emoji, a binary `b.png`, and `.git/config`:
   only `a.txt` is processed and rewritten, two emoji are removed, and the
   run succeeds.
   */
  lemma OneTextFile()
    ensures Clean(Emoji, TextExtensions, false, ["/", "proj"], Project) == Stats(1, 1, 2, [])
    ensures Main(Emoji, true, ["/", "proj"], Project, false, {}) == 0
  {
    WalkOfProject();
    FoldOfProject();
    assert TextExtensions + {} == TextExtensions;
  }

  /** Folding the step over the example's two walked files. */
  lemma FoldOfProject()
    ensures Fold(Emoji, TextExtensions, false, Initial,
                 [Entry(["/", "proj", "a.txt"], ReadOk(Greeting, Written)),
                  Entry(["/", "proj", "b.png"], ReadOk(Greeting, Written))])
            == Stats(1, 1, 2, [])
  {
    FoldTwo(Emoji, TextExtensions, false, Initial,
            Entry(["/", "proj", "a.txt"], ReadOk(Greeting, Written)),
            Entry(["/", "proj", "b.png"], ReadOk(Greeting, Written)));
    VisitFirst();
    VisitSecond();
  }

  /** Folding over two entries is two visits in order. */
  lemma FoldTwo(isEmoji: char -> bool, textExts: set<string>, dryRun: bool, s: Stats, x: Entry, y: Entry)
    ensures Fold(isEmoji, textExts, dryRun, s, [x, y])
            == Visit(isEmoji, textExts, dryRun, Visit(isEmoji, textExts, dryRun, s, x), y)
  {
    var s1 := Visit(isEmoji, textExts, dryRun, s, x);
    assert [x][..0] == [];
    assert Fold(isEmoji, textExts, dryRun, s, [x]) == s1;
    assert [x, y][..1] == [x];
    assert Fold(isEmoji, textExts, dryRun, s, [x, y]) == Visit(isEmoji, textExts, dryRun, s1, y);
  }

  /** `a.txt` is accepted, read, and rewritten without its two emoji. */
  lemma VisitFirst()
    ensures Visit(Emoji, TextExtensions, false, Initial,
                  Entry(["/", "proj", "a.txt"], ReadOk(Greeting, Written)))
            == Stats(1, 1, 2, [])
  {
    Classification();
    StepOnText();
  }

  /** `b.png` is rejected, so visiting it changes nothing. */
  lemma VisitSecond()
    ensures Visit(Emoji, TextExtensions, false, Stats(1, 1, 2, []),
                  Entry(["/", "proj", "b.png"], ReadOk(Greeting, Written)))
            == Stats(1, 1, 2, [])
  {
    Classification();
  }

  /** The step on `a.txt`: read, two emoji, written back. */
  lemma StepOnText()
    ensures ProcessFile(Emoji, false, Initial, ["/", "proj", "a.txt"], ReadOk(Greeting, Written))
            == Stats(1, 1, 2, [])
  {
    GreetingHasTwoEmoji();
  }
}

=== FILE: traversal.dfy ===
/**
 The walk of the emoji remover: a finite directory tree, the top-down walk
 that prunes skipped sub-directories before descending, the fold of the
 per-file step over the files the walk yields, and the exit status of `main`.
 */
module Traversal {
  import opened Classify
  import opened Accounting

  /** A file in the tree, together with what reading and writing it would do. */
  datatype FileNode = FileNode(name: string, outcome: Outcome)

  /** A directory: its own name, the files listed in it, its sub-directories. */
  datatype Tree = Dir(name: string, files: seq<FileNode>, subdirs: seq<Tree>)

  /** A file as the walk yields it: its full path and its outcome. */
  datatype Entry = Entry(path: Path, outcome: Outcome)

  /** A file the run rewrites, with the text it leaves in it. */
  datatype Rewrite = Rewrite(path: Path, content: string)

  /** The files listed directly in the directory at `dir`. */
  function Here(dir: Path, files: seq<FileNode>): seq<Entry> {
    seq(|files|, k requires 0 <= k < |files| => Entry(dir + [files[k].name], files[k].outcome))
  }

  /** `path` names something strictly inside the directory at `dir`. */
  predicate Under(dir: Path, path: Path) {
    |dir| < |path| && path[..|dir|] == dir
  }

  /** On its way down from `dir` to its file, `path` passes through a skipped directory. */
  predicate PrunedBelow(dir: Path, path: Path) {
    exists i :: |dir| <= i < |path| - 1 && path[i] in SkipDirectories
  }

  /**
   Every file of the tree at `dir`, pruning nothing, in the walk's order:
   the directory's own files first, then each sub-directory in turn.
   */
  function AllFiles(dir: Path, t: Tree): (es: seq<Entry>)
    ensures forall e :: e in es ==> Under(dir, e.path)
    decreases t
  {
    Here(dir, t.files) + AllFilesOf(dir, t.subdirs)
  }

  function AllFilesOf(dir: Path, ts: seq<Tree>): (es: seq<Entry>)
    ensures forall e :: e in es ==> Under(dir, e.path)
    decreases ts
  {
    if |ts| == 0 then []
    else
      var sub := AllFiles(dir + [ts[0].name], ts[0]);
      assert forall e :: e in sub ==> Under(dir, e.path) by {
        forall e | e in sub ensures Under(dir, e.path) {
          assert e.path[..|dir|] == e.path[..|dir| + 1][..|dir|];
        }
      }
      sub + AllFilesOf(dir, ts[1..])
  }

  /**
   The top-down walk of `traverse_and_clean`: the files of a directory, then
   the walk of each sub-directory whose name is not skipped. A skipped
   sub-directory is removed from the listing before the walk would descend,
   so nothing beneath it is ever listed. The name of the directory at `dir`
   itself is not consulted: the root is walked whatever it is called.
   */
  function Walk(dir: Path, t: Tree): (es: seq<Entry>)
    ensures forall e :: e in es ==> Under(dir, e.path) && !PrunedBelow(dir, e.path)
    decreases t
  {
    Here(dir, t.files) + WalkAll(dir, t.subdirs)
  }

  function WalkAll(dir: Path, ts: seq<Tree>): (es: seq<Entry>)
    ensures forall e :: e in es ==> Under(dir, e.path) && !PrunedBelow(dir, e.path)
    decreases ts
  {
    if |ts| == 0 then []
    else if ts[0].name in SkipDirectories then WalkAll(dir, ts[1..])
    else
      var sub := Walk(dir + [ts[0].name], ts[0]);
      assert forall e :: e in sub ==> Under(dir, e.path) && !PrunedBelow(dir, e.path) by {
        forall e | e in sub ensures Under(dir, e.path) && !PrunedBelow(dir, e.path) {
          assert e.path[..|dir|] == e.path[..|dir| + 1][..|dir|];
          assert e.path[|dir|] == ts[0].name;
        }
      }
      sub + WalkAll(dir, ts[1..])
  }

  /** The entries that do not lie beneath a skipped directory below `dir`, in order. */
  function Unpruned(dir: Path, es: seq<Entry>): seq<Entry>
    decreases |es|
  {
    if |es| == 0 then []
    else (if PrunedBelow(dir, es[0].path) then [] else [es[0]]) + Unpruned(dir, es[1..])
  }

  lemma {:induction false} UnprunedAppend(dir: Path, a: seq<Entry>, b: seq<Entry>)
    ensures Unpruned(dir, a + b) == Unpruned(dir, a) + Unpruned(dir, b)
    decreases |a|
  {
    if |a| == 0 {
      assert a + b == b;
    } else {
      var head := if PrunedBelow(dir, a[0].path) then [] else [a[0]];
      assert (a + b)[0] == a[0];
      assert (a + b)[1..] == a[1..] + b;
      assert Unpruned(dir, a + b) == head + Unpruned(dir, a[1..] + b);
      UnprunedAppend(dir, a[1..], b);
      assert Unpruned(dir, a) == head + Unpruned(dir, a[1..]);
    }
  }

  lemma {:induction false} UnprunedHere(dir: Path, files: seq<FileNode>)
    ensures Unpruned(dir, Here(dir, files)) == Here(dir, files)
    decreases |files|
  {
    if |files| > 0 {
      assert Here(dir, files)[1..] == Here(dir, files[1..]);
      UnprunedHere(dir, files[1..]);
    }
  }

  /** Entries that all pass through a skipped directory vanish. */
  lemma {:induction false} UnprunedAllPruned(dir: Path, es: seq<Entry>)
    requires forall e :: e in es ==> PrunedBelow(dir, e.path)
    ensures Unpruned(dir, es) == []
    decreases |es|
  {
    if |es| > 0 {
      assert es[0] in es;
      UnprunedAllPruned(dir, es[1..]);
    }
  }

  /** Below a sub-directory whose name is not skipped, pruning from the parent and from the child agree. */
  lemma {:induction false} UnprunedRebase(dir: Path, name: string, es: seq<Entry>)
    requires name !in SkipDirectories
    requires forall e :: e in es ==> Under(dir + [name], e.path)
    ensures Unpruned(dir, es) == Unpruned(dir + [name], es)
    decreases |es|
  {
    if |es| > 0 {
      var p := es[0].path;
      assert es[0] in es;
      assert p[|dir|] == (dir + [name])[|dir|];
      assert PrunedBelow(dir, p) <==> PrunedBelow(dir + [name], p);
      UnprunedRebase(dir, name, es[1..]);
    }
  }

  /**
   The walk lists exactly the files of the tree that do not lie beneath a
   skipped sub-directory, in the same order: pruning loses nothing else and
   adds nothing.
   */
  lemma {:induction false} WalkIsUnprunedFiles(dir: Path, t: Tree)
    ensures Walk(dir, t) == Unpruned(dir, AllFiles(dir, t))
    decreases t, 1
  {
    UnprunedAppend(dir, Here(dir, t.files), AllFilesOf(dir, t.subdirs));
    UnprunedHere(dir, t.files);
    WalkAllIsUnprunedFiles(dir, t.subdirs);
  }

  lemma {:induction false} WalkAllIsUnprunedFiles(dir: Path, ts: seq<Tree>)
    ensures WalkAll(dir, ts) == Unpruned(dir, AllFilesOf(dir, ts))
    decreases ts, 0
  {
    if |ts| > 0 {
      var d := ts[0];
      var sub := AllFiles(dir + [d.name], d);
      UnprunedAppend(dir, sub, AllFilesOf(dir, ts[1..]));
      WalkAllIsUnprunedFiles(dir, ts[1..]);
      if d.name in SkipDirectories {
        forall e | e in sub ensures PrunedBelow(dir, e.path) {
          assert e.path[|dir|] == (dir + [d.name])[|dir|];
        }
        UnprunedAllPruned(dir, sub);
      } else {
        UnprunedRebase(dir, d.name, sub);
        WalkIsUnprunedFiles(dir + [d.name], d);
      }
    }
  }

  /** The files of a walk that the classification accepts, in order. */
  function Candidates(textExts: set<string>, es: seq<Entry>): (r: seq<Entry>)
    ensures forall e :: e in r <==> e in es && ShouldProcess(textExts, e.path)
    decreases |es|
  {
    if |es| == 0 then []
    else
      var init := es[..|es| - 1];
      var last := es[|es| - 1];
      assert es == init + [last];
      Candidates(textExts, init) + (if ShouldProcess(textExts, last.path) then [last] else [])
  }

  /** One iteration of the inner loop: classify the file, and process it if accepted. */
  function Visit(isEmoji: char -> bool, textExts: set<string>, dryRun: bool, s: Stats, e: Entry): (r: Stats)
    ensures !ShouldProcess(textExts, e.path) ==> r == s
    ensures r.processed <= s.processed + 1 && s.errors <= r.errors && |r.errors| <= |s.errors| + 1
    ensures Valid(s) ==> Valid(r)
    ensures dryRun ==> r.modified == s.modified
  {
    if ShouldProcess(textExts, e.path) then ProcessFile(isEmoji, dryRun, s, e.path, e.outcome) else s
  }

  /** The counters after visiting the entries `es` in order, starting from `s`. */
  function Fold(isEmoji: char -> bool, textExts: set<string>, dryRun: bool, s: Stats, es: seq<Entry>): (r: Stats)
    ensures Valid(s) ==> Valid(r)
    ensures dryRun ==> r.modified == s.modified
    ensures s.processed <= r.processed && s.removed <= r.removed && s.modified <= r.modified
    ensures s.errors <= r.errors
    ensures r.processed <= s.processed + |es|
    decreases |es|
  {
    if |es| == 0 then s
    else Visit(isEmoji, textExts, dryRun, Fold(isEmoji, textExts, dryRun, s, es[..|es| - 1]), es[|es| - 1])
  }

  // Reference summaries of a sequence of accepted files, independent of the step.

  function ReadCount(es: seq<Entry>): nat
    decreases |es|
  {
    if |es| == 0 then 0
    else ReadCount(es[..|es| - 1]) + (if es[|es| - 1].outcome.ReadOk? then 1 else 0)
  }

  function TotalFound(isEmoji: char -> bool, es: seq<Entry>): nat
    decreases |es|
  {
    if |es| == 0 then 0
    else TotalFound(isEmoji, es[..|es| - 1]) + Found(isEmoji, es[|es| - 1].outcome)
  }

  /** The files whose write completes, with the cleaned text `clean` leaves in them. */
  function Rewrites(isEmoji: char -> bool, clean: string -> string, dryRun: bool, es: seq<Entry>): seq<Rewrite>
    decreases |es|
  {
    if |es| == 0 then []
    else
      var e := es[|es| - 1];
      Rewrites(isEmoji, clean, dryRun, es[..|es| - 1])
        + (if Modifies(isEmoji, dryRun, e.outcome) then [Rewrite(e.path, clean(e.outcome.text))] else [])
  }

  /** How many of the files `es` end up rewritten. */
  function ModifiedCount(isEmoji: char -> bool, dryRun: bool, es: seq<Entry>): nat
    decreases |es|
  {
    if |es| == 0 then 0
    else ModifiedCount(isEmoji, dryRun, es[..|es| - 1]) + (if Modifies(isEmoji, dryRun, es[|es| - 1].outcome) then 1 else 0)
  }

  /** There is one rewrite per modified file, whatever text the cleaning leaves. */
  lemma {:induction false} RewritesCountModified(isEmoji: char -> bool, clean: string -> string, dryRun: bool, es: seq<Entry>)
    ensures |Rewrites(isEmoji, clean, dryRun, es)| == ModifiedCount(isEmoji, dryRun, es)
    decreases |es|
  {
    if |es| > 0 {
      RewritesCountModified(isEmoji, clean, dryRun, es[..|es| - 1]);
    }
  }

  function Failures(isEmoji: char -> bool, dryRun: bool, es: seq<Entry>): seq<FileError>
    decreases |es|
  {
    if |es| == 0 then []
    else
      var e := es[|es| - 1];
      Failures(isEmoji, dryRun, es[..|es| - 1])
        + (if Fails(isEmoji, dryRun, e.outcome) then [FileError(e.path, FailureReason(e.outcome))] else [])
  }

  /**
   The counters after a walk, stated without the step: `processed` counts
   the accepted files that could be read, `removed` adds up their emoji
   counts, `modified` counts the files whose write completes (one per
   rewrite, by `RewritesCountModified`), and the error
   list holds one entry per failed read or write, in walk order.
   */
  lemma {:induction false} FoldIsSummary(isEmoji: char -> bool, textExts: set<string>, dryRun: bool,
                                         s: Stats, es: seq<Entry>)
    ensures Fold(isEmoji, textExts, dryRun, s, es)
            == Summary(isEmoji, dryRun, s, Candidates(textExts, es))
    decreases |es|
  {
    if |es| > 0 {
      var init := es[..|es| - 1];
      var last := es[|es| - 1];
      FoldIsSummary(isEmoji, textExts, dryRun, s, init);
      var ci := Candidates(textExts, init);
      var prev := Fold(isEmoji, textExts, dryRun, s, init);
      assert prev == Summary(isEmoji, dryRun, s, ci);
      if ShouldProcess(textExts, last.path) {
        assert Fold(isEmoji, textExts, dryRun, s, es) == ProcessFile(isEmoji, dryRun, prev, last.path, last.outcome);
        assert Candidates(textExts, es) == ci + [last];
        SummaryStep(isEmoji, dryRun, s, ci, last);
      } else {
        assert Fold(isEmoji, textExts, dryRun, s, es) == prev;
        assert Candidates(textExts, es) == ci;
      }
    }
  }

  /** The summary of the accepted files `c`, applied to the starting counters `s`. */
  function Summary(isEmoji: char -> bool, dryRun: bool, s: Stats, c: seq<Entry>): Stats {
    Stats(s.processed + ReadCount(c),
          s.modified + ModifiedCount(isEmoji, dryRun, c),
          s.removed + TotalFound(isEmoji, c),
          s.errors + Failures(isEmoji, dryRun, c))
  }

  /** Processing one more accepted file moves the summary along by that file. */
  lemma SummaryStep(isEmoji: char -> bool, dryRun: bool, s: Stats, c: seq<Entry>, last: Entry)
    ensures ProcessFile(isEmoji, dryRun, Summary(isEmoji, dryRun, s, c), last.path, last.outcome)
            == Summary(isEmoji, dryRun, s, c + [last])
  {
    assert (c + [last])[..|c|] == c;
    assert Failures(isEmoji, dryRun, c + [last]) == Failures(isEmoji, dryRun, c)
            + (if Fails(isEmoji, dryRun, last.outcome) then [FileError(last.path, FailureReason(last.outcome))] else []);
    assert s.errors + Failures(isEmoji, dryRun, c + [last]) == (s.errors + Failures(isEmoji, dryRun, c))
            + (if Fails(isEmoji, dryRun, last.outcome) then [FileError(last.path, FailureReason(last.outcome))] else []);
  }

  lemma {:induction false} FailuresNonEmptyIff(isEmoji: char -> bool, dryRun: bool, es: seq<Entry>)
    ensures |Failures(isEmoji, dryRun, es)| > 0 <==> exists e :: e in es && Fails(isEmoji, dryRun, e.outcome)
    decreases |es|
  {
    if |es| > 0 {
      var init := es[..|es| - 1];
      FailuresNonEmptyIff(isEmoji, dryRun, init);
      assert es == init + [es[|es| - 1]];
    }
  }

  lemma {:induction false} DryRunRewritesNothing(isEmoji: char -> bool, clean: string -> string, es: seq<Entry>)
    ensures Rewrites(isEmoji, clean, true, es) == []
    decreases |es|
  {
    if |es| > 0 {
      DryRunRewritesNothing(isEmoji, clean, es[..|es| - 1]);
    }
  }

  /** Every rewrite leaves the cleaned text of a file that was read, held emoji, and was accepted. */
  lemma {:induction false} RewritesAreCleanedEmojiFiles(isEmoji: char -> bool, clean: string -> string,
                                                        dryRun: bool, es: seq<Entry>, w: Rewrite)
    requires w in Rewrites(isEmoji, clean, dryRun, es)
    ensures exists e :: e in es && e.path == w.path && e.outcome.ReadOk?
                        && EmojiCount(isEmoji, e.outcome.text) > 0 && w.content == clean(e.outcome.text)
    decreases |es|
  {
    var init := es[..|es| - 1];
    var e := es[|es| - 1];
    if w in Rewrites(isEmoji, clean, dryRun, init) {
      RewritesAreCleanedEmojiFiles(isEmoji, clean, dryRun, init, w);
      var e' :| e' in init && e'.path == w.path && e'.outcome.ReadOk?
                && EmojiCount(isEmoji, e'.outcome.text) > 0 && w.content == clean(e'.outcome.text);
      assert e' in es;
    } else {
      assert e in es;
    }
  }

  /** The counters of a whole run from the root directory `root`. */
  function Clean(isEmoji: char -> bool, textExts: set<string>, dryRun: bool, root: Path, t: Tree): (r: Stats)
    ensures r.modified <= r.processed <= |Walk(root, t)|
    ensures dryRun ==> r.modified == 0
  {
    Fold(isEmoji, textExts, dryRun, Initial, Walk(root, t))
  }

  /** The process exit status after the run: failure iff an error was recorded. */
  function ExitStatus(s: Stats): (code: int)
    ensures code == 0 || code == 1
    ensures code == 1 <==> s.errors != []
  {
    if |s.errors| > 0 then 1 else 0
  }

  /**
   `main` without its I/O: an invalid root fails at once; otherwise the
   extensions from the command line join the text set, the tree is walked
   and cleaned, and the exit status follows the error list.
   */
  function Main(isEmoji: char -> bool, rootIsDir: bool, root: Path, t: Tree, dryRun: bool, extraExts: set<string>): (code: int)
    ensures code == 0 || code == 1
    ensures !rootIsDir ==> code == 1
    ensures rootIsDir ==> (code == 1 <==> Clean(isEmoji, TextExtensions + extraExts, dryRun, root, t).errors != [])
  {
    if !rootIsDir then 1
    else ExitStatus(Clean(isEmoji, TextExtensions + extraExts, dryRun, root, t))
  }

  /**
   `traverse_and_clean` as a loop over the walk: the counters after the
   loop are those of the fold, a file is never modified without having been
   processed, and a dry run modifies nothing.
   */
  method TraverseAndClean(isEmoji: char -> bool, textExts: set<string>, dryRun: bool, root: Path, t: Tree)
    returns (stats: Stats)
    ensures stats == Clean(isEmoji, textExts, dryRun, root, t)
    ensures stats.modified <= stats.processed
    ensures dryRun ==> stats.modified == 0
    ensures stats.processed <= |Walk(root, t)|
  {
    var es := Walk(root, t);
    stats := Initial;
    var i := 0;
    while i < |es|
      invariant 0 <= i <= |es|
      invariant stats == Fold(isEmoji, textExts, dryRun, Initial, es[..i])
      invariant stats.processed <= i
    {
      var e := es[i];
      ghost var prev := stats;
      if ShouldProcess(textExts, e.path) {
        stats := ProcessFile(isEmoji, dryRun, stats, e.path, e.outcome);
      }
      assert stats == Visit(isEmoji, textExts, dryRun, prev, e);
      FoldSnoc(isEmoji, textExts, dryRun, Initial, es, i);
      i := i + 1;
    }
    assert es[..i] == es;
  }

  /** Folding one more entry of `es` is one more visit. */
  lemma FoldSnoc(isEmoji: char -> bool, textExts: set<string>, dryRun: bool, s: Stats, es: seq<Entry>, i: nat)
    requires i < |es|
    ensures Fold(isEmoji, textExts, dryRun, s, es[..i + 1])
            == Visit(isEmoji, textExts, dryRun, Fold(isEmoji, textExts, dryRun, s, es[..i]), es[i])
  {
    assert es[..i + 1][..i] == es[..i];
  }

  /** No file beneath a skipped sub-directory is listed, and no file with a skipped part is processed. */
  lemma NoSkippedFileProcessed(textExts: set<string>, root: Path, t: Tree)
    ensures forall e :: e in Walk(root, t) ==> !PrunedBelow(root, e.path)
    ensures forall e :: e in Candidates(textExts, Walk(root, t)) ==> !HasSkippedPart(e.path)
  {
  }

  /**
   The run exits with failure iff the root is invalid or some accepted file
   failed to read or to be written back.
   */
  lemma MainFailsIffError(isEmoji: char -> bool, rootIsDir: bool, root: Path, t: Tree,
                          dryRun: bool, extraExts: set<string>)
    ensures var c := Candidates(TextExtensions + extraExts, Walk(root, t));
            Main(isEmoji, rootIsDir, root, t, dryRun, extraExts) == 1
            <==> !rootIsDir || exists e :: e in c && Fails(isEmoji, dryRun, e.outcome)
  {
    var textExts := TextExtensions + extraExts;
    var es := Walk(root, t);
    FoldIsSummary(isEmoji, textExts, dryRun, Initial, es);
    FailuresNonEmptyIff(isEmoji, dryRun, Candidates(textExts, es));
  }

  /** A dry run rewrites no file and leaves the modified counter at zero. */
  lemma DryRunChangesNoFile(isEmoji: char -> bool, clean: string -> string, textExts: set<string>, root: Path, t: Tree)
    ensures Rewrites(isEmoji, clean, true, Candidates(textExts, Walk(root, t))) == []
    ensures Clean(isEmoji, textExts, true, root, t).modified == 0
  {
    DryRunRewritesNothing(isEmoji, clean, Candidates(textExts, Walk(root, t)));
  }

  /** An empty root directory yields zero counters and a successful exit. */
  lemma EmptyRootSucceeds(isEmoji: char -> bool, root: Path, name: string, dryRun: bool, extraExts: set<string>)
    ensures Clean(isEmoji, TextExtensions + extraExts, dryRun, root, Dir(name, [], [])) == Initial
    ensures Main(isEmoji, true, root, Dir(name, [], []), dryRun, extraExts) == 0
  {
    assert Walk(root, Dir(name, [], [])) == [];
  }

  /**
   Since the skip test looks at every part of the absolute path, a root
   directory that itself lies beneath a directory named, say, `build` yields
   a run in which no file at all is processed.
   */
  lemma {:induction false} SkippedAncestorProcessesNothing(isEmoji: char -> bool, textExts: set<string>, dryRun: bool,
                                                           root: Path, t: Tree)
    requires HasSkippedPart(root)
    ensures Clean(isEmoji, textExts, dryRun, root, t) == Initial
  {
    var es := Walk(root, t);
    var i :| 0 <= i < |root| && root[i] in SkipDirectories;
    forall e | e in es ensures !ShouldProcess(textExts, e.path) {
      assert e.path[i] == e.path[..|root|][i];
    }
    FoldRejectsAll(isEmoji, textExts, dryRun, Initial, es);
  }

  lemma {:induction false} FoldRejectsAll(isEmoji: char -> bool, textExts: set<string>, dryRun: bool, s: Stats, es: seq<Entry>)
    requires forall e :: e in es ==> !ShouldProcess(textExts, e.path)
    ensures Fold(isEmoji, textExts, dryRun, s, es) == s
    decreases |es|
  {
    if |es| > 0 {
      assert es[|es| - 1] in es;
      FoldRejectsAll(isEmoji, textExts, dryRun, s, es[..|es| - 1]);
    }
  }

  /**
   The converse of `RewritesAreCleanedEmojiFiles`: every accepted file that
   was read, holds emoji, and whose write completes in a run that is not dry
   is rewritten with the cleaned form of its text.
   */
  lemma {:induction false} EmojiFilesAreRewritten(isEmoji: char -> bool, clean: string -> string,
                                                  dryRun: bool, es: seq<Entry>, e: Entry)
    requires e in es && Modifies(isEmoji, dryRun, e.outcome)
    ensures Rewrite(e.path, clean(e.outcome.text)) in Rewrites(isEmoji, clean, dryRun, es)
    decreases |es|
  {
    var init := es[..|es| - 1];
    assert es == init + [es[|es| - 1]];
    if e != es[|es| - 1] {
      assert e in init;
      EmojiFilesAreRewritten(isEmoji, clean, dryRun, init, e);
    }
  }

  /**
   A dry run reports the counts a normal run would reach: over the same
   tree, both process the same files and remove the same number of emoji.
   */
  lemma DryRunCountsLikeNormalRun(isEmoji: char -> bool, textExts: set<string>,
                                  root: Path, t: Tree)
    ensures Clean(isEmoji, textExts, true, root, t).processed == Clean(isEmoji, textExts, false, root, t).processed
    ensures Clean(isEmoji, textExts, true, root, t).removed == Clean(isEmoji, textExts, false, root, t).removed
  {
    var es := Walk(root, t);
    FoldIsSummary(isEmoji, textExts, true, Initial, es);
    FoldIsSummary(isEmoji, textExts, false, Initial, es);
  }
}
